=== FILE: README.md ===
# compress_images: a verified model of the batch-compression decisions

`compress_images.py` shrinks every `img/*.png` into a JPEG in
`img_compressed/` until the batch fits in 1 MiB, then swaps the compressed
directory in place of the originals. Around the PIL and filesystem calls
sits a small amount of decision logic. This project models that logic in
Dafny and proves what it does:

- the output-name rewrite `basename.replace('.png', '.jpg')`;
- the `*.png` filter of `get_total_size`;
- the mode rule and resize dimensions of `compress_image`;
- the moderate first pass, the trigger for the aggressive second pass, the
  even per-file share and the quality/width retry schedule;
- the final size test that gates the directory swap.

The JPEG encoder is an oracle, `Encode.Encoder`. Given a source name and the
plan (mode, width, height, quality) it returns the number of bytes written,
or nothing when PIL raised. A source whose `Image.open` fails has no picture.
A directory is a sequence of `(name, size)` entries. Writing an output
replaces the entry with that name. `os.path.getsize` on a missing name ends
the run (`Crashed`).

Files:

- `optional.dfy`: the `Option` type.
- `names.dfy`: the replace-all rewrite and the glob name filter.
- `directory.dfy`: file lookup, writing a file, and `get_total_size`.
- `encode.dfy`: `compress_image`.
- `pipeline.dfy`: `main`.
- `findings.dfy`: a concrete run that shows the finding below.

## Model

| member | source | states |
|---|---|---|
| Names.ReplacePng | compress_images.py:62 | the rewritten name has exactly the length of the original |
| Names.ReplaceFrom | compress_images.py:62 | the left-to-right scan from any index produces exactly as many characters as remain |
| Names.NoPngLeft | compress_images.py:62 | no ".png" substring is left in a rewritten name, including none formed across a rewritten boundary |
| Names.NoPngUnchanged | compress_images.py:62 | a name with no ".png" is returned unchanged |
| Names.ReplaceIdempotent | compress_images.py:62 | rewriting an output name again changes nothing |
| Names.TrailingPngRewritten | compress_images.py:62 | a trailing ".png" is always rewritten to ".jpg" and the rest of the name is rewritten as it would be alone |
| Names.PngSuffixBecomesJpg | compress_images.py:62 | a name ending in ".png" maps to a name ending in ".jpg" |
| Names.MatchesGlob | compress_images.py:14 | a name is listed by "*" + ext exactly when it is non-empty, does not start with ".", and its last len(ext) characters are ext, compared case-sensitively |
| Names.OutputNotPngGlob | compress_images.py:14 | no output name is listed by the "*.png" pattern |
| Names.OutputIsJpgGlob | compress_images.py:47 | every name listed by "*.png" maps to a name listed by "*.jpg" (not hidden, ends in ".jpg") |
| Names.OutputNamesCollide | compress_images.py:60-62 | for any stem x, the different sources "x.png.png" and "x.jpg.png" are both listed by "*.png" and get the same output name "x.jpg.jpg" |
| Directory.Lookup | compress_images.py:7-9 | the size is found exactly when some file has that name, and it is that file's size |
| Directory.Put | compress_images.py:33 | after the write the name reads back the written size, every other name reads back as before, and the files are the new one plus the old ones with other names; a directory with one file per name keeps that property |
| Directory.LookupUnique | compress_images.py:7-9 | in a directory with one file per name, every file's name reads back that file's size |
| Directory.Measure | compress_images.py:11-16 | the filtered total never exceeds the directory's total |
| Directory.MeasurePutUnlisted | compress_images.py:14 | writing a file the pattern does not list leaves the measured total unchanged |
| Directory.MeasureAllListed | compress_images.py:14 | when the pattern lists every file, the measured total is the directory's total |
| Directory.MeasureNoneListed | compress_images.py:14 | when the pattern lists no file, the measured total is 0 |
| Encode.JpegMode | compress_images.py:23-24 | the result is never RGBA, LA or P; the mode changes exactly when it is one of those three; a changed mode becomes RGB |
| Encode.ResizeTarget | compress_images.py:27-30 | wider than max_width: width becomes max_width and height is the truncated `height*max_width/width`, stated as `h'*width <= height*max_width < (h'+1)*width`; otherwise both are unchanged; the result is never larger and never wider than max_width |
| Encode.CompressImage | compress_images.py:18-37 | fails exactly when the picture cannot be opened or the encoder raises on the plan; on success the encoder was handed the converted mode of the picture (JpegMode) and its resize target (ResizeTarget) at the requested quality, so the mode is JPEG-compatible and the size within max_width and the picture, and the size is what the encoder wrote |
| Pipeline.Tighten | compress_images.py:90-91 | quality drops by exactly 10; width never goes below 400 and decreases while above 400; on the schedule (quality 50..20 with width = 10*quality + 300) the next state is on the schedule, with the 400 floor not applied |
| Pipeline.OverShareIsDivision | compress_images.py:80 | for a positive file count, `size*n > target` holds exactly when `size > target/n` over the reals |
| Pipeline.WriteOutput | compress_images.py:62-64 | a failed encode leaves the directory as it was; a successful one makes the output name read back the encoded size; no other name changes; the "*.png" total is unchanged; a directory with one file per name keeps that property |
| Pipeline.Phase1 | compress_images.py:59-66 | one outcome per file, each the result of encoding at quality 75 and width 1000; the total is the sum of the sizes of exactly the successful encodes; a file that encoded reads back its encoded size unless a later file with the same output name also encoded; a file that failed writes nothing, so a name that only failed files map to reads back as before, and so does every name no file maps to; a directory with one file per name keeps that property; the "*.png" total is unchanged |
| Pipeline.Phase2NeedsFiles | compress_images.py:71-80 | when the first-pass total exceeds 1048576, at least one encode succeeded, so the file list is non-empty and the per-file share is defined |
| Pipeline.FirstFit | compress_images.py:86-92 | reference for the loop on the encoder alone: a setting on the schedule at or below the start; every earlier setting encoded over the share, and above quality 20 the chosen one did not (the "whichever first" stop) |
| Pipeline.Holds | compress_images.py:86-92 | reference for what the output file holds after the loop's re-encodes: a successful encode replaces the size, a failed one leaves it; when every re-encode down to the given quality fails, the earlier size is kept |
| Pipeline.Retry | compress_images.py:89-92 | ends in a missing output exactly when the output cannot be read back at the start; otherwise the state stays on the schedule, quality and width never increase, the re-encode count grows by one per 10 quality points, the loop condition is false at exit, and only the file's own output changes; the size read back is Holds: the last successful re-encode's size, or the size there at the start when every re-encode failed; when the directory holds the encode of the starting setting, it ends holding the encode of the final one, and when every encode of the schedule succeeds it stops exactly at FirstFit; a directory with one file per name keeps that property |
| Pipeline.Shrink | compress_images.py:82-92 | crashes exactly when the encode at quality 50 and width 800 fails and no earlier output of the file exists; otherwise at most 3 re-encodes, one per step of the schedule (width = 10*quality + 300); the size read back is Holds from the first encode's size, or from the earlier output when that encode failed, so a failed re-encode leaves the previous size to be read; it meets the share or quality is 20; when every encode of the schedule succeeds the final setting is FirstFit; only the file's own output changes; a directory with one file per name keeps that property |
| Pipeline.Phase2 | compress_images.py:75-94 | never crashes when every file has an output; when it completes, trial i belongs to file i with everything Shrink promises of it (encoder-tied size, stop rule, FirstFit); each output reads back its trial's size unless a later file shares its name; no name other than an output changes; the accumulated total is the sum of the trial sizes; the "*.png" total is unchanged; a directory with one file per name keeps that property |
| Pipeline.Phase2Crash | compress_images.py:82-92 | the second pass completes whenever every file can start (its output is already there or the encode at quality 50 and width 800 succeeds), and when it crashes some file could not start |
| Pipeline.EvenSplitMeetsBudget | compress_images.py:80 | when each of the n files meets the share target/n, the n sizes together are within the budget |
| Pipeline.PngFiles | compress_images.py:47 | the listed sources are exactly those whose names match "*.png", each as many times as in the listing, so `len(png_files)` counts exactly the matching entries |
| Pipeline.PngFilesAppend | compress_images.py:47 | the filter keeps listing order: filtering a concatenation is the concatenation of the filtered parts |
| Pipeline.AfterPhase1 | compress_images.py:70-94 | at or under the budget the first-pass directory is the result; above it the result is missing exactly when the second pass (share of all the files, on the first-pass directory) hits a missing output, and is otherwise that pass's directory with every per-file promise of Phase2; no "*.png" file is added; a first-pass directory with one file per name gives a result with one file per name |
| Pipeline.CompressAll | compress_images.py:44-94 | the first pass runs over the "*.png" listing; when it fits the budget its directory is the result, and otherwise the result is that of the second pass on it, as in AfterPhase1; when every first-pass encode succeeded, the run does not crash; the "*.png" total of the output directory is what it was before the run; a starting directory with one file per name gives a result with one file per name |
| Pipeline.Decide | compress_images.py:99-107 | the swap happens exactly when the measured final size is at most 1048576; otherwise only the failure is reported |
| Pipeline.RunAsWritten | compress_images.py:96-107 | crashes exactly when the passes hit a missing output; otherwise the compressed directory is the one offered for the swap, the final size equals the "*.png" total the output directory had before the run, whatever was written, and the swap happens exactly when that stale total is within budget; into a fresh directory the run never ends in failure |
| Pipeline.Run | compress_images.py:96-107 | corrected final test: crashes exactly when the passes hit a missing output; otherwise the compressed directory is the one offered for the swap and the swap happens exactly when its "*.jpg" total is within budget; when the output directory starts with only JPEG files, that is the total size of everything that replaces the originals |
| Findings.AsWrittenSwapsOversizedOutput | compress_images.py:96-104 | one 2 MiB output in a fresh directory: the script as written measures 0 and swaps |
| Findings.CorrectedKeepsOversizedOutput | compress_images.py:96-107 | the same run with the corrected measurement measures 2 MiB and keeps the originals |

## Left out

- PIL (`Image.open`, `convert`, LANCZOS `resize`, JPEG `save` with `optimize=True`) is a foreign library. It is the oracle `Encode.Encoder`. The model does not assume that a more aggressive setting gives a smaller file.
- A mode other than RGBA, LA or P that JPEG cannot store is not converted by the script (for example PA or I;16). Its failure is whatever the oracle reports.
- Exact float behaviour. `int(img.height * ratio)` is modelled as the integer floor of `height*max_width/width`. A float rounding that lands just below an integer is not modelled. `size > target_size / len(png_files)` is modelled as `size*n > target_size`, which is exact over the reals.
- An encode that raises partway through `save`: the model leaves the directory as it was. Any partial file PIL might leave is not modelled.
- A failed encode in the second pass is not checked by the script. The model reads back whatever output is there (Pipeline.Shrink states when none is). With none, `get_file_size` raises; the model ends the run as `Crashed`. The OS exception itself is not modelled.
- Pipeline.Retry and Pipeline.Shrink: the stopping setting is tied to Pipeline.FirstFit only when every encode of the schedule succeeds. When one fails, the loop compares a stale size read back from an older output. The size read back is stated for every case through Pipeline.Holds, but for that case the stopping setting is given only by the stop rule, not by a closed form.
- Filesystem I/O. `os.makedirs(exist_ok=True)` becomes a starting output directory given as a parameter. The order `glob` returns is the order of the listing parameter. Only file names and sizes are modelled; paths are reduced to basenames.
- The two `os.rename` calls are the `Swapped` outcome. Their failures, and the window between them, are not modelled.
- Printing. The original total at lines 52-53 is only printed and is not modelled. The same goes for every progress and result message.
- The `current_size` accumulated at line 94 is never read afterwards. It is kept as `Phase2Result.total` only.
- Resize height: `int()` truncates the scaled height toward zero; the model takes the floor, which is the same for these non-negative values.
- Glob matching is case-sensitive, as on POSIX systems. On a case-insensitive filesystem `*.png` also lists `A.PNG`, whose name `replace('.png', '.jpg')` leaves unchanged; such an output would be counted at line 96. Names.OutputNotPngGlob and the finding below hold only for case-sensitive matching.
- Duplicate names: a directory is a sequence, and the starting output directory is not required to hold one file per name. Directory.UniqueNames states the property a real directory has; Directory.Put keeps it and Directory.LookupUnique shows that lookups then read the one file of each name. The run itself does not require it of its starting directory.
- Pipeline.Retry requires a state on the quality/width schedule. The loop starts at (50, 800) and only steps along the schedule, so no other state is reachable.

## Findings

| source | as written | input that shows it | evidently intended | confidence | as-written member | corrected member |
|---|---|---|---|---|---|---|
| compress_images.py:96 | `final_size = get_total_size(compressed_dir)` sums only `*.png` files, but every output is named by rewriting ".png" to ".jpg", so with case-sensitive glob matching no output is ever counted | a fresh `img_compressed` and one readable `img/a.png` whose JPEG is 2 MiB at every setting: `final_size` is 0 and the directories are swapped | the final size should be the size of the compressed outputs that replace the originals (`*.jpg`) | high; not executed | Pipeline.RunAsWritten, shown by Findings.AsWrittenSwapsOversizedOutput | Pipeline.Run, shown by Findings.CorrectedKeepsOversizedOutput |

=== FILE: directory.dfy ===
/** One flat directory of files, as the script sees it through the
    filesystem: `os.path.getsize`, writing an output file, and the
    `get_total_size` measurement through a glob pattern. */
module Directory {

  import opened Optional
  import opened Names

  datatype Entry = Entry(name: string, size: nat)

  /** The files of a directory, in listing order. */
  type Dir = seq<Entry>

  /** `os.path.getsize` of the file `name`; None when there is no such file
      (the call raises). */
  function Lookup(d: Dir, name: string): (r: Option<nat>)
    ensures r.None? <==> forall e :: e in d ==> e.name != name
    ensures r.Some? ==> Entry(name, r.value) in d
  {
    if |d| == 0 then None
    else if d[0].name == name then Some(d[0].size)
    else Lookup(d[1..], name)
  }

  /** The directory with every file called `name` removed. */
  function Without(d: Dir, name: string): (r: Dir)
    ensures forall e :: e in r <==> e in d && e.name != name
  {
    if |d| == 0 then []
    else if d[0].name == name then Without(d[1..], name)
    else [d[0]] + Without(d[1..], name)
  }

  /** Looking a file up in `a + b` finds it in `a` first. */
  lemma {:induction false} LookupAppend(a: Dir, b: Dir, name: string)
    ensures Lookup(a + b, name) == if Lookup(a, name).Some? then Lookup(a, name) else Lookup(b, name)
    decreases |a|
  {
    if |a| != 0 {
      assert (a + b)[1..] == a[1..] + b;
      LookupAppend(a[1..], b, name);
    } else {
      assert a + b == b;
    }
  }

  /** Removing one name does not change what any other name reads back. */
  lemma {:induction false} LookupWithout(d: Dir, name: string, other: string)
    requires other != name
    ensures Lookup(Without(d, name), other) == Lookup(d, other)
    decreases |d|
  {
    if |d| != 0 {
      LookupWithout(d[1..], name, other);
    }
  }

  /** A real directory holds at most one file of each name. */
  predicate UniqueNames(d: Dir)
  {
    forall i, j :: 0 <= i < j < |d| ==> d[i].name != d[j].name
  }

  lemma TailUnique(d: Dir)
    requires 0 < |d| && UniqueNames(d)
    ensures UniqueNames(d[1..])
    ensures forall e :: e in d[1..] ==> e.name != d[0].name
  {
    forall e | e in d[1..]
      ensures e.name != d[0].name
    {
      var k :| 0 <= k < |d[1..]| && d[1..][k] == e;
      assert d[k + 1] == e;
    }
  }

  /** In a directory with unique names, a file reads back its own size. */
  lemma {:induction false} LookupUnique(d: Dir, e: Entry)
    requires UniqueNames(d) && e in d
    ensures Lookup(d, e.name) == Some(e.size)
    decreases |d|
  {
    if d[0] != e {
      assert e in d[1..];
      TailUnique(d);
      LookupUnique(d[1..], e);
    }
  }

  /** Removing files keeps the names unique. */
  lemma {:induction false} WithoutUnique(d: Dir, name: string)
    requires UniqueNames(d)
    ensures UniqueNames(Without(d, name))
    decreases |d|
  {
    if |d| != 0 {
      var t := d[1..];
      TailUnique(d);
      WithoutUnique(t, name);
      if d[0].name != name {
        var w := Without(t, name);
        var r := [d[0]] + w;
        forall i, j | 0 <= i < j < |r|
          ensures r[i].name != r[j].name
        {
          assert r[j] == w[j - 1] && w[j - 1] in w;
          if i != 0 {
            assert r[i] == w[i - 1];
          }
        }
      }
    }
  }

  /** Writing `size` bytes to the file `name`, creating or overwriting it. */
  function Put(d: Dir, name: string, size: nat): (r: Dir)
    ensures Lookup(r, name) == Some(size)
    ensures forall n :: n != name ==> Lookup(r, n) == Lookup(d, n)
    ensures forall e :: e in r <==> e == Entry(name, size) || (e in d && e.name != name)
    ensures UniqueNames(d) ==> UniqueNames(r)
  {
    var r := Without(d, name) + [Entry(name, size)];
    assert UniqueNames(d) ==> UniqueNames(r) by {
      if UniqueNames(d) {
        WithoutUnique(d, name);
        var w := Without(d, name);
        forall i, j | 0 <= i < j < |r|
          ensures r[i].name != r[j].name
        {
          assert r[i] == w[i] && w[i] in w;
        }
      }
    }
    LookupAppend(Without(d, name), [Entry(name, size)], name);
    forall n | n != name
      ensures Lookup(r, n) == Lookup(d, n)
    {
      LookupAppend(Without(d, name), [Entry(name, size)], n);
      LookupWithout(d, name, n);
    }
    r
  }

  /** Total bytes of every file in the directory. */
  function Total(d: Dir): nat
  {
    if |d| == 0 then 0 else d[0].size + Total(d[1..])
  }

  /** `get_total_size`: total bytes of the files listed by `glob("*" + ext)`;
      never more than the directory's total. */
  function Measure(d: Dir, ext: string): (r: nat)
    ensures r <= Total(d)
  {
    if |d| == 0 then 0
    else (if MatchesGlob(d[0].name, ext) then d[0].size else 0) + Measure(d[1..], ext)
  }

  /** Every file in the directory is listed by `glob("*" + ext)`. */
  predicate AllMatch(d: Dir, ext: string)
  {
    forall e :: e in d ==> MatchesGlob(e.name, ext)
  }

  lemma {:induction false} MeasureAppend(a: Dir, b: Dir, ext: string)
    ensures Measure(a + b, ext) == Measure(a, ext) + Measure(b, ext)
    decreases |a|
  {
    if |a| == 0 {
      assert a + b == b;
    } else {
      assert (a + b)[1..] == a[1..] + b;
      MeasureAppend(a[1..], b, ext);
    }
  }

  lemma {:induction false} MeasureWithout(d: Dir, name: string, ext: string)
    requires !MatchesGlob(name, ext)
    ensures Measure(Without(d, name), ext) == Measure(d, ext)
    decreases |d|
  {
    if |d| != 0 {
      MeasureWithout(d[1..], name, ext);
      if d[0].name != name {
        assert ([d[0]] + Without(d[1..], name))[1..] == Without(d[1..], name);
      }
    }
  }

  /** Writing a file the pattern does not list leaves the measurement as it
      was. */
  lemma MeasurePutUnlisted(d: Dir, name: string, size: nat, ext: string)
    requires !MatchesGlob(name, ext)
    ensures Measure(Put(d, name, size), ext) == Measure(d, ext)
  {
    MeasureWithout(d, name, ext);
    MeasureAppend(Without(d, name), [Entry(name, size)], ext);
  }

  /** When the pattern lists every file, the measurement is the directory's
      total. */
  lemma {:induction false} MeasureAllListed(d: Dir, ext: string)
    requires AllMatch(d, ext)
    ensures Measure(d, ext) == Total(d)
    decreases |d|
  {
    if |d| != 0 {
      assert d[0] in d;
      MeasureAllListed(d[1..], ext);
    }
  }

  /** When the pattern lists no file, the measurement is zero. */
  lemma {:induction false} MeasureNoneListed(d: Dir, ext: string)
    requires forall e :: e in d ==> !MatchesGlob(e.name, ext)
    ensures Measure(d, ext) == 0
    decreases |d|
  {
    if |d| != 0 {
      assert d[0] in d;
      MeasureNoneListed(d[1..], ext);
    }
  }
}

=== FILE: encode.dfy ===
/** `compress_image`: the decisions it makes before handing a picture to the
    JPEG encoder. The encoder itself (PIL's open, convert, LANCZOS resize and
    `save`) is an oracle that, given the source and the plan, reports the
    size of the file it wrote, or nothing when it raised. */
module Encode {

  import opened Optional

  /** What `Image.open` reveals about a picture: its colour mode and size. */
  datatype Picture = Picture(mode: string, width: nat, height: nat)

  /** A source file; `picture` is None when it cannot be opened. */
  datatype Source = Source(name: string, picture: Option<Picture>)

  /** What is handed to the JPEG encoder. */
  datatype Plan = Plan(mode: string, width: nat, height: nat, quality: int)

  /** Bytes written when encoding the named source with a plan, or None when
      converting, resizing or saving raised. */
  type Encoder = (string, Plan) -> Option<nat>

  datatype Dims = Dims(width: nat, height: nat)

  datatype Encoded = Encoded(plan: Plan, size: nat) | Failed

  /** Modes with transparency or a palette, converted before JPEG encoding. */
  const ConvertedModes: set<string> := {"RGBA", "LA", "P"}

  const Rgb: string := "RGB"

  /** The mode rule: a converted mode becomes RGB, every other mode is kept. */
  function JpegMode(mode: string): (r: string)
    ensures r !in ConvertedModes
    ensures r != mode <==> mode in ConvertedModes
    ensures r == mode || r == Rgb
  {
    if mode in ConvertedModes then Rgb else mode
  }

  /** floor(a * b / c), characterised without division. */
  lemma ScaledFloor(a: nat, b: nat, c: nat)
    requires 0 < c
    ensures (a * b / c) * c <= a * b < (a * b / c + 1) * c
  {
  }

  /** Cancelling a positive factor on both sides of an inequality. */
  lemma CancelFactor(x: nat, y: nat, c: nat)
    requires 0 < c && x * c <= y * c
    ensures x <= y
  {
    assert (x - y) * c == x * c - y * c;
  }

  /** A floor of `height * maxWidth / width` with `maxWidth < width` is at most
      `height`. */
  lemma ScaledDown(height: nat, maxWidth: nat, width: nat)
    requires maxWidth < width
    ensures height * maxWidth / width <= height
  {
    var q := height * maxWidth / width;
    ScaledFloor(height, maxWidth, width);
    assert q * width <= height * width;
    CancelFactor(q, height, width);
  }

  /** The size the picture is resized to: a picture wider than `maxWidth` gets
      exactly that width and its height scaled by the same ratio, truncated
      as `int()` truncates; a narrower one keeps its size. */
  function ResizeTarget(width: nat, height: nat, maxWidth: nat): (r: Dims)
    ensures width <= maxWidth ==> r == Dims(width, height)
    ensures maxWidth < width ==>
      r.width == maxWidth && r.height * width <= height * maxWidth < (r.height + 1) * width
    ensures r.width <= width && r.width <= maxWidth
    ensures r.height <= height
  {
    if width > maxWidth then
      var h := height * maxWidth / width;
      ScaledFloor(height, maxWidth, width);
      ScaledDown(height, maxWidth, width);
      Dims(maxWidth, h)
    else Dims(width, height)
  }

  /** The plan `compress_image` hands to the encoder for an opened picture. */
  function PlanFor(p: Picture, quality: int, maxWidth: nat): Plan
  {
    var d := ResizeTarget(p.width, p.height, maxWidth);
    Plan(JpegMode(p.mode), d.width, d.height, quality)
  }

  /** `compress_image(input, output, quality, max_width)`: Encoded with the
      plan and the written size when it returns True, Failed when it catches
      an exception and returns False. */
  function CompressImage(src: Source, quality: int, maxWidth: nat, enc: Encoder): (r: Encoded)
    ensures r.Failed? <==>
      src.picture.None? || enc(src.name, PlanFor(src.picture.value, quality, maxWidth)).None?
    ensures r.Encoded? ==>
      && src.picture.Some?
      && r.plan == PlanFor(src.picture.value, quality, maxWidth)
      && r.plan.mode == JpegMode(src.picture.value.mode)
      && Dims(r.plan.width, r.plan.height) == ResizeTarget(src.picture.value.width, src.picture.value.height, maxWidth)
      && enc(src.name, r.plan) == Some(r.size)
      && r.plan.quality == quality
      && r.plan.mode !in ConvertedModes
      && r.plan.width <= maxWidth
      && r.plan.width <= src.picture.value.width
      && r.plan.height <= src.picture.value.height
  {
    match src.picture
    case None => Failed
    case Some(p) =>
      var plan := PlanFor(p, quality, maxWidth);
      match enc(src.name, plan)
      case None => Failed
      case Some(size) => Encoded(plan, size)
  }
}

=== FILE: findings.dfy ===
/** A run that shows the final size test of `main` passing while the
    compressed directory is twice the budget: one readable "a.png" whose
    every encode comes out at 2 MiB, written into a fresh output directory.
    The test as written swaps the directories; the corrected test keeps
    them. */
module Findings {

  import opened Optional
  import opened Names
  import opened Directory
  import opened Encode
  import opened Pipeline

  /** An encoder whose output is 2 MiB at every setting. */
  function Oversized(name: string, p: Plan): Option<nat>
  {
    Some(2 * Target)
  }

  const Image: Source := Source("a.png", Some(Picture("RGB", 1, 1)))

  /** The output directory after either pass: the one 2 MiB output. */
  const Written: Dir := [Entry("a.jpg", 2 * Target)]

  lemma ImageOutputName()
    ensures OutputName(Image) == "a.jpg"
  {
    assert Image.name == "a" + Png;
    TrailingPngRewritten("a");
  }

  lemma ImagePhase1()
    ensures Phase1([Image], [], Oversized).dir == Written
    ensures Phase1([Image], [], Oversized).total == 2 * Target
  {
    ImageOutputName();
    assert Phase1([], [], Oversized) == Phase1Result([], [], 0);
    assert [Image][..0] == [];
  }

  /** Every re-encode overwrites the output with another 2 MiB. */
  lemma ImageRewrites()
    ensures WriteOutput(Written, Image, Aggressive, Oversized) == Written
    ensures WriteOutput(Written, Image, Settings(40, 700), Oversized) == Written
    ensures WriteOutput(Written, Image, Settings(30, 600), Oversized) == Written
    ensures WriteOutput(Written, Image, Settings(20, 500), Oversized) == Written
  {
    ImageOutputName();
    assert Without(Written, "a.jpg") == [];
  }

  /** The retry loop runs down to quality 20 and width 500. */
  lemma ImageShrink()
    ensures Shrink(Image, 1, Written, Oversized) == Done(Trial(Settings(20, 500), 3, Written, 2 * Target))
  {
    ImageOutputName();
    ImageRewrites();
    var t := Trial(Settings(20, 500), 3, Written, 2 * Target);
    assert Lookup(Written, "a.jpg") == Some(2 * Target);
    assert Tighten(Aggressive) == Settings(40, 700);
    assert Tighten(Settings(40, 700)) == Settings(30, 600);
    assert Tighten(Settings(30, 600)) == Settings(20, 500);
    assert Retry(Image, 1, Settings(20, 500), 3, Written, Oversized) == Done(t);
    assert Retry(Image, 1, Settings(30, 600), 2, Written, Oversized) == Done(t);
    assert Retry(Image, 1, Settings(40, 700), 1, Written, Oversized) == Done(t);
  }

  lemma ImagePhase2()
    ensures Phase2([Image], 1, Written, Oversized).Done?
    ensures Phase2([Image], 1, Written, Oversized).value.dir == Written
  {
    ImageShrink();
    assert Phase2([], 1, Written, Oversized) == Done(Phase2Result(Written, [], 0));
    assert [Image][..0] == [];
  }

  lemma ImageCompressed()
    ensures CompressAll([Image], [], Oversized) == Done(Written)
  {
    assert PngFiles([Image]) == [Image];
    ImagePhase1();
    ImagePhase2();
  }

  /** As written, the run swaps in a directory of 2 MiB, having measured 0. */
  lemma AsWrittenSwapsOversizedOutput()
    ensures RunAsWritten([Image], [], Oversized) == Swapped(Written, 0)
    ensures Total(Written) > Target
  {
    ImageCompressed();
  }

  /** The corrected measurement counts the one output. */
  lemma WrittenMeasured()
    ensures Measure(Written, Jpg) == 2 * Target
  {
    assert MatchesGlob("a.jpg", Jpg);
    assert Written[1..] == [];
  }

  /** Corrected, the same run measures 2 MiB and keeps the originals. */
  lemma CorrectedKeepsOversizedOutput()
    ensures Run([Image], [], Oversized) == Kept(Written, 2 * Target)
  {
    ImageCompressed();
    WrittenMeasured();
  }
}

=== FILE: names.dfy ===
/** File names: the output-name rewrite of compress_images.py (a replace-all
    of ".png" by ".jpg", as Python's `str.replace` does it) and the "*" + ext
    pattern that `glob` applies to one directory. */
module Names {

  const Png: string := ".png"
  const Jpg: string := ".jpg"

  /** `pat` occurs in `s` starting at index `i`. */
  predicate OccursAt(s: string, pat: string, i: nat)
  {
    i + |pat| <= |s| && forall k :: 0 <= k < |pat| ==> s[i + k] == pat[k]
  }

  /** `pat` occurs somewhere in `s`. */
  predicate Contains(s: string, pat: string)
  {
    exists i: nat | i <= |s| :: OccursAt(s, pat, i)
  }

  predicate EndsWith(s: string, suffix: string)
  {
    |suffix| <= |s| && OccursAt(s, suffix, |s| - |suffix|)
  }

  /** `name` is listed by `glob("*" + ext)`: it ends with `ext` (case
      sensitive) and, being matched by a pattern that does not start with a
      dot, is not a hidden name. */
  predicate MatchesGlob(name: string, ext: string)
    ensures MatchesGlob(name, ext) <==>
      0 < |name| && name[0] != '.' && |ext| <= |name| && name[|name| - |ext|..] == ext
  {
    EndsWithSuffix(name, ext);
    0 < |name| && name[0] != '.' && EndsWith(name, ext)
  }

  /** The character-wise suffix test is the slice comparison. */
  lemma EndsWithSuffix(s: string, suffix: string)
    ensures EndsWith(s, suffix) <==> |suffix| <= |s| && s[|s| - |suffix|..] == suffix
  {
    if |suffix| <= |s| {
      var t := s[|s| - |suffix|..];
      assert |t| == |suffix|;
      assert OccursAt(s, suffix, |s| - |suffix|) <==> forall k :: 0 <= k < |suffix| ==> t[k] == suffix[k];
    }
  }

  /** The rewrite of `s[i..]`, scanning left to right from index `i`: an
      occurrence of ".png" becomes ".jpg" and the scan resumes after it;
      any other character is copied. */
  function ReplaceFrom(s: string, i: nat): (r: string)
    requires i <= |s|
    ensures |r| == |s| - i
    decreases |s| - i
  {
    if i == |s| then []
    else if OccursAt(s, Png, i) then Jpg + ReplaceFrom(s, i + |Png|)
    else [s[i]] + ReplaceFrom(s, i + 1)
  }

  /** `s.replace('.png', '.jpg')`: every non-overlapping occurrence, leftmost
      first; the length is kept because both strings have four characters. */
  function ReplacePng(s: string): (r: string)
    ensures |r| == |s|
  {
    ReplaceFrom(s, 0)
  }

  /** The rewrite never changes the character where it starts: an occurrence
      is replaced by a string with the same leading dot. */
  lemma HeadKept(s: string, i: nat)
    requires i < |s|
    ensures ReplaceFrom(s, i)[0] == s[i]
  {
    if OccursAt(s, Png, i) {
      assert s[i + 0] == Png[0];
    }
  }

  /** Where the scan copies `s[i]`, the rest of the image is the image from
      `i + 1`. */
  lemma CopyShift(s: string, i: nat, j: nat)
    requires i < |s| && !OccursAt(s, Png, i) && 0 < j < |s| - i
    ensures ReplaceFrom(s, i)[j] == ReplaceFrom(s, i + 1)[j - 1]
  {
  }

  /** A dot that does not start ".png" is copied, and so are the characters
      after it up to the first one that differs from ".png"; so the image
      does not start with ".png" at that dot. */
  lemma DotNotRewritten(s: string, i: nat)
    requires i + 4 <= |s| && s[i] == '.' && !OccursAt(s, Png, i)
    ensures !OccursAt(ReplaceFrom(s, i), Png, 0)
  {
    var m := if s[i + 1] != Png[1] then 1 else if s[i + 2] != Png[2] then 2 else 3;
    assert s[i + m] != Png[m] by {
      if m == 3 {
        var k :| 0 <= k < 4 && s[i + k] != Png[k];
        assert k == 3;
      }
    }
    forall p | i < p < i + m
      ensures !OccursAt(s, Png, p)
    {
      assert s[p + 0] != Png[0];
    }
    CopiedChar(s, i, i + m);
    assert ReplaceFrom(s, i)[m] != Png[m];
  }

  /** Through a stretch where the scan finds no occurrence, every character
      is copied to the same place. */
  lemma {:induction false} CopiedChar(s: string, i: nat, j: nat)
    requires i <= j < |s|
    requires forall p :: i <= p < j ==> !OccursAt(s, Png, p)
    ensures ReplaceFrom(s, i)[j - i] == s[j]
    decreases j - i
  {
    if i == j {
      HeadKept(s, i);
    } else {
      CopiedChar(s, i + 1, j);
      CopyShift(s, i, j - i);
    }
  }

  /** Where the scan copies a character, the image does not start with
      ".png". */
  lemma CopiedHeadClean(s: string, i: nat)
    requires i < |s| && !OccursAt(s, Png, i)
    ensures !OccursAt(ReplaceFrom(s, i), Png, 0)
  {
    if i + 4 <= |s| {
      if s[i] == '.' {
        DotNotRewritten(s, i);
      } else {
        HeadKept(s, i);
        assert ReplaceFrom(s, i)[0 + 0] != Png[0];
      }
    }
  }

  /** Prefixing ".jpg" creates no ".png". */
  lemma JpgPrefixClean(t: string)
    requires !Contains(t, Png)
    ensures !Contains(Jpg + t, Png)
  {
    var r := Jpg + t;
    forall j: nat | j <= |r|
      ensures !OccursAt(r, Png, j)
    {
      if 4 <= j {
        if j + 4 <= |r| {
          assert !OccursAt(t, Png, j - 4);
          var k :| 0 <= k < 4 && t[j - 4 + k] != Png[k];
          assert r[j + k] == t[j - 4 + k];
        }
      } else if j == 0 {
        assert r[1] != Png[1];
      } else if j < |r| {
        assert r[j] != Png[0];
      }
    }
  }

  /** Prefixing a character creates no ".png" after it. */
  lemma ConsClean(c: char, t: string)
    requires !Contains(t, Png)
    ensures forall j: nat | 1 <= j <= |t| + 1 :: !OccursAt([c] + t, Png, j)
  {
    var r := [c] + t;
    forall j: nat | 1 <= j <= |t| + 1
      ensures !OccursAt(r, Png, j)
    {
      if j + 4 <= |r| {
        assert !OccursAt(t, Png, j - 1);
        var k :| 0 <= k < 4 && t[j - 1 + k] != Png[k];
        assert r[j + k] == t[j - 1 + k];
      }
    }
  }

  lemma {:induction false} NoPngLeftFrom(s: string, i: nat)
    requires i <= |s|
    ensures !Contains(ReplaceFrom(s, i), Png)
    decreases |s| - i
  {
    if i == |s| {
    } else if OccursAt(s, Png, i) {
      NoPngLeftFrom(s, i + 4);
      JpgPrefixClean(ReplaceFrom(s, i + 4));
    } else {
      NoPngLeftFrom(s, i + 1);
      ConsClean(s[i], ReplaceFrom(s, i + 1));
      CopiedHeadClean(s, i);
    }
  }

  /** No ".png" survives the rewrite, and none is created by it. */
  lemma NoPngLeft(s: string)
    ensures !Contains(ReplacePng(s), Png)
  {
    NoPngLeftFrom(s, 0);
  }

  lemma {:induction false} NoPngUnchangedFrom(s: string, i: nat)
    requires i <= |s| && !Contains(s, Png)
    ensures ReplaceFrom(s, i) == s[i..]
    decreases |s| - i
  {
    if i < |s| {
      assert !OccursAt(s, Png, i);
      NoPngUnchangedFrom(s, i + 1);
      assert s[i..] == [s[i]] + s[i + 1..];
    }
  }

  /** A name without ".png" is left exactly as it is. */
  lemma NoPngUnchanged(s: string)
    requires !Contains(s, Png)
    ensures ReplacePng(s) == s
  {
    NoPngUnchangedFrom(s, 0);
  }

  /** Rewriting twice is rewriting once. */
  lemma ReplaceIdempotent(s: string)
    ensures ReplacePng(ReplacePng(s)) == ReplacePng(s)
  {
    NoPngLeft(s);
    NoPngUnchanged(ReplacePng(s));
  }

  /** Inside `a`, an occurrence in `a + Png` is an occurrence in `a`; an
      index less than four before the end of `a` starts none, because the
      dot of the trailing ".png" would have to match 'p', 'n' or 'g'. */
  lemma OccursBeforeSuffix(a: string, i: nat)
    requires i < |a|
    ensures OccursAt(a + Png, Png, i) <==> OccursAt(a, Png, i)
  {
    var s := a + Png;
    if |a| < i + 4 {
      assert s[|a|] == '.';
      assert s[i + (|a| - i)] != Png[|a| - i];
    }
  }

  lemma {:induction false} TrailingFrom(a: string, i: nat)
    requires i <= |a|
    ensures ReplaceFrom(a + Png, i) == ReplaceFrom(a, i) + Jpg
    decreases |a| - i
  {
    var s := a + Png;
    if i == |a| {
      assert OccursAt(s, Png, i);
      assert ReplaceFrom(s, i + 4) == [];
    } else {
      OccursBeforeSuffix(a, i);
      if OccursAt(a, Png, i) {
        TrailingFrom(a, i + 4);
      } else {
        TrailingFrom(a, i + 1);
        assert s[i] == a[i];
      }
    }
  }

  /** A trailing ".png" is always rewritten: no earlier occurrence can
      overlap it, because no proper suffix of ".png" starts with a dot. */
  lemma TrailingPngRewritten(a: string)
    ensures ReplacePng(a + Png) == ReplacePng(a) + Jpg
  {
    TrailingFrom(a, 0);
  }

  /** A name ending in ".png" maps to a name ending in ".jpg". */
  lemma PngSuffixBecomesJpg(s: string)
    requires EndsWith(s, Png)
    ensures EndsWith(ReplacePng(s), Jpg)
  {
    var a := s[..|s| - 4];
    assert s == a + Png;
    TrailingPngRewritten(a);
    var r := ReplacePng(s);
    assert r[|r| - 4..] == Jpg;
  }

  /** No output name is listed by `glob("*.png")`. */
  lemma OutputNotPngGlob(s: string)
    ensures !MatchesGlob(ReplacePng(s), Png)
  {
    NoPngLeft(s);
  }

  /** Every name listed by `glob("*.png")` maps to a name listed by
      `glob("*.jpg")`. */
  lemma OutputIsJpgGlob(s: string)
    requires MatchesGlob(s, Png)
    ensures MatchesGlob(ReplacePng(s), Jpg)
  {
    HeadKept(s, 0);
    PngSuffixBecomesJpg(s);
  }

  /** Appending ".jpg" creates no ".png": the dot of ".jpg" cannot continue an
      occurrence begun earlier, and ".jpg" itself is not ".png". */
  lemma JpgSuffixClean(x: string)
    requires !Contains(x, Png)
    ensures !Contains(x + Jpg, Png)
  {
    var r := x + Jpg;
    forall j: nat | j <= |r|
      ensures !OccursAt(r, Png, j)
    {
      if j + 4 <= |x| {
        assert !OccursAt(x, Png, j);
        var k :| 0 <= k < 4 && x[j + k] != Png[k];
        assert r[j + k] == x[j + k];
      } else if j < |x| {
        assert r[|x|] == '.';
        assert r[j + (|x| - j)] != Png[|x| - j];
      } else if j == |x| {
        assert r[j + 1] != Png[1];
      }
    }
  }

  /** Two different "*.png" names can share one output name, so the second
      image's output overwrites the first's: for any stem `x`, "x.png.png"
      and "x.jpg.png" both become "x.jpg.jpg". */
  lemma OutputNamesCollide(x: string)
    requires 0 < |x| && x[0] != '.' && !Contains(x, Png)
    ensures x + Png + Png != x + Jpg + Png
    ensures MatchesGlob(x + Png + Png, Png) && MatchesGlob(x + Jpg + Png, Png)
    ensures ReplacePng(x + Png + Png) == ReplacePng(x + Jpg + Png) == x + Jpg + Jpg
  {
    NoPngUnchanged(x);
    TrailingPngRewritten(x);
    TrailingPngRewritten(x + Png);
    TrailingPngRewritten(x + Jpg);
    JpgSuffixClean(x);
    NoPngUnchanged(x + Jpg);
    assert (x + Png + Png)[|x| + 1] != (x + Jpg + Png)[|x| + 1];
    var a := x + Png + Png;
    var b := x + Jpg + Png;
    assert OccursAt(a, Png, |a| - 4) by {
      forall k | 0 <= k < 4 ensures a[|a| - 4 + k] == Png[k] { }
    }
    assert OccursAt(b, Png, |b| - 4) by {
      forall k | 0 <= k < 4 ensures b[|b| - 4 + k] == Png[k] { }
    }
  }
}

=== FILE: optional.dfy ===
/** The optional value used for lookups that may find nothing and for
    operations that may fail without a reason worth recording. */
module Optional {

  datatype Option<+T> = None | Some(value: T)
}

=== FILE: pipeline.dfy ===
/** `main` of compress_images.py: the moderate first pass, the aggressive
    second pass with its per-file retry schedule, and the final size test
    that decides whether the compressed directory replaces the originals. */
module Pipeline {

  import opened Optional
  import opened Names
  import opened Directory
  import opened Encode

  /** The byte budget for the whole batch: 1 MiB. */
  const Target: nat := 1024 * 1024

  const Phase1Quality: int := 75
  const Phase1Width: nat := 1000

  const StartQuality: int := 50
  const StartWidth: nat := 800
  const QualityStep: int := 10
  const WidthStep: int := 100
  const FloorQuality: int := 20
  const FloorWidth: nat := 400

  /** The quality and maximum width handed to `compress_image`. */
  datatype Settings = Settings(quality: int, maxWidth: nat)

  /** Where the second pass starts for every file. */
  const Aggressive: Settings := Settings(StartQuality, StartWidth)

  /** A second-pass file: the settings it ended with, how many times it was
      re-encoded after the first aggressive encode, the directory afterwards
      and the output size last read back. */
  datatype Trial = Trial(settings: Settings, reencodes: nat, dir: Dir, size: nat)

  /** Either a value, or the name of an output file that `os.path.getsize`
      did not find (the call raises and the run stops). */
  datatype Outcome<+T> = Done(value: T) | Missing(name: string)

  datatype Phase1Result = Phase1Result(dir: Dir, outcomes: seq<Encoded>, total: nat)

  datatype Phase2Result = Phase2Result(dir: Dir, trials: seq<Trial>, total: nat)

  /** Swapped: the originals were renamed to the backup name and the
      compressed directory took their place. Kept: only the failure message. */
  datatype RunResult =
    | Swapped(dir: Dir, finalSize: nat)
    | Kept(dir: Dir, finalSize: nat)
    | Crashed(missing: string)

  /** The output file name of a source: `basename.replace('.png', '.jpg')`. */
  function OutputName(src: Source): string
  {
    ReplacePng(src.name)
  }

  /** The states the retry loop passes through: quality 50, 40, 30 or 20 and
      the width tied to it, 800, 700, 600 or 500. */
  predicate OnSchedule(s: Settings)
  {
    && FloorQuality <= s.quality <= StartQuality
    && s.quality % QualityStep == 0
    && s.maxWidth == 10 * s.quality + 300
  }

  /** One retry step: quality down by 10, width down by 100 but not below 400.
      On the schedule the floor of 400 never applies. */
  function Tighten(s: Settings): (r: Settings)
    ensures r.quality == s.quality - QualityStep
    ensures FloorWidth <= r.maxWidth
    ensures FloorWidth < s.maxWidth ==> r.maxWidth < s.maxWidth
    ensures s.maxWidth <= FloorWidth ==> r.maxWidth == FloorWidth
    ensures OnSchedule(s) && FloorQuality < s.quality ==>
      OnSchedule(r) && r.maxWidth == s.maxWidth - WidthStep
  {
    var w := s.maxWidth - WidthStep;
    Settings(s.quality - QualityStep, if w < FloorWidth then FloorWidth else w)
  }

  /** `size > target_size / n`, stated without the float division. */
  predicate OverShare(size: nat, n: nat)
  {
    size * n > Target
  }

  /** The cross-multiplied test agrees with the division it replaces. */
  lemma OverShareIsDivision(size: nat, n: nat)
    requires 0 < n
    ensures OverShare(size, n) <==> (size as real) > (Target as real) / (n as real)
  {
    var share := (Target as real) / (n as real);
    assert share * (n as real) == Target as real;
    if (size as real) > share {
      assert (size as real) * (n as real) > share * (n as real);
    } else {
      assert (size as real) * (n as real) <= share * (n as real);
    }
  }

  /** `compress_image` writing the output of `src`: the file is written when
      the encode succeeds; a failed encode leaves the directory as it was. */
  function WriteOutput(d: Dir, src: Source, s: Settings, enc: Encoder): (r: Dir)
    ensures CompressImage(src, s.quality, s.maxWidth, enc).Failed? ==> r == d
    ensures CompressImage(src, s.quality, s.maxWidth, enc).Encoded? ==>
      Lookup(r, OutputName(src)) == Some(CompressImage(src, s.quality, s.maxWidth, enc).size)
    ensures forall name :: name != OutputName(src) ==> Lookup(r, name) == Lookup(d, name)
    ensures KeepsFiles(d, r)
    ensures Measure(r, Png) == Measure(d, Png)
    ensures AllMatch(d, Jpg) && MatchesGlob(src.name, Png) ==> AllMatch(r, Jpg)
    ensures UniqueNames(d) ==> UniqueNames(r)
  {
    match CompressImage(src, s.quality, s.maxWidth, enc)
    case Failed => d
    case Encoded(_, size) =>
      OutputNotPngGlob(src.name);
      MeasurePutUnlisted(d, OutputName(src), size, Png);
      assert MatchesGlob(src.name, Png) ==> MatchesGlob(OutputName(src), Jpg) by {
        if MatchesGlob(src.name, Png) {
          OutputIsJpgGlob(src.name);
        }
      }
      Put(d, OutputName(src), size)
  }

  /** No file of `files` has the output name `name`. */
  predicate NotAnOutput(files: seq<Source>, name: string)
  {
    forall f :: f in files ==> OutputName(f) != name
  }

  /** `d'` differs from `d` at most in the outputs of `files`: every other
      name reads back as before. */
  ghost predicate OnlyOutputs(files: seq<Source>, d: Dir, d': Dir)
  {
    forall name :: NotAnOutput(files, name) ==> Lookup(d', name) == Lookup(d, name)
  }

  lemma OnlyOutputsStep(init: seq<Source>, f: Source, d: Dir, d1: Dir, d2: Dir)
    requires OnlyOutputs(init, d, d1)
    requires forall name :: name != OutputName(f) ==> Lookup(d2, name) == Lookup(d1, name)
    ensures OnlyOutputs(init + [f], d, d2)
  {
    forall name | NotAnOutput(init + [f], name)
      ensures Lookup(d2, name) == Lookup(d, name)
    {
      assert f in init + [f];
      assert forall g :: g in init ==> g in init + [f];
    }
  }

  // ---------------------------------------------------------------------
  // Phase 1
  // ---------------------------------------------------------------------

  /** Bytes an encode contributed: its size when it succeeded, else nothing. */
  function SizeOf(o: Encoded): nat
  {
    if o.Encoded? then o.size else 0
  }

  /** Sum of the sizes of the successful encodes of a report. */
  function EncodedTotal(os: seq<Encoded>): nat
  {
    if |os| == 0 then 0 else SizeOf(os[0]) + EncodedTotal(os[1..])
  }

  lemma {:induction false} EncodedTotalAppend(os: seq<Encoded>, o: Encoded)
    ensures EncodedTotal(os + [o]) == EncodedTotal(os) + SizeOf(o)
    decreases |os|
  {
    if |os| == 0 {
      assert os + [o] == [o];
    } else {
      assert (os + [o])[1..] == os[1..] + [o];
      EncodedTotalAppend(os[1..], o);
    }
  }

  /** A positive total needs at least one successful encode. */
  lemma {:induction false} PositiveTotalHasSuccess(os: seq<Encoded>)
    requires 0 < EncodedTotal(os)
    ensures exists i :: 0 <= i < |os| && os[i].Encoded?
    decreases |os|
  {
    if !os[0].Encoded? {
      PositiveTotalHasSuccess(os[1..]);
      var i :| 0 <= i < |os[1..]| && os[1..][i].Encoded?;
      assert os[i + 1].Encoded?;
    }
  }

  /** Every file that encoded in `outcomes` has its output in `d`. */
  ghost predicate WroteOutputs(files: seq<Source>, outcomes: seq<Encoded>, d: Dir)
  {
    forall i :: 0 <= i < |files| && i < |outcomes| && outcomes[i].Encoded? ==>
      Lookup(d, OutputName(files[i])).Some?
  }

  /** Every file is listed by `glob("*.png")`. */
  predicate AllPng(files: seq<Source>)
  {
    forall f :: f in files ==> MatchesGlob(f.name, Png)
  }

  lemma WroteOutputsStep(init: seq<Source>, f: Source, os: seq<Encoded>, o: Encoded, d: Dir, d': Dir)
    requires |os| == |init| && WroteOutputs(init, os, d) && KeepsFiles(d, d')
    requires o.Encoded? ==> Lookup(d', OutputName(f)).Some?
    ensures WroteOutputs(init + [f], os + [o], d')
  {
  }

  /** Every file of `files` from index `lo` on whose output name is `name`
      failed to encode. */
  predicate FailedFrom(files: seq<Source>, os: seq<Encoded>, name: string, lo: nat)
  {
    forall j :: lo <= j < |files| && j < |os| && OutputName(files[j]) == name ==> os[j].Failed?
  }

  lemma FailedFromSplit(init: seq<Source>, f: Source, os: seq<Encoded>, o: Encoded, name: string, lo: nat)
    requires |os| == |init| && lo <= |init|
    ensures FailedFrom(init + [f], os + [o], name, lo) <==>
      FailedFrom(init, os, name, lo) && (OutputName(f) == name ==> o.Failed?)
  {
    var files, os' := init + [f], os + [o];
    assert files[|init|] == f && os'[|init|] == o;
    if FailedFrom(files, os', name, lo) {
      forall j | lo <= j < |init| && j < |os| && OutputName(init[j]) == name
        ensures os[j].Failed?
      {
        assert files[j] == init[j] && os'[j] == os[j];
      }
    }
    if FailedFrom(init, os, name, lo) && (OutputName(f) == name ==> o.Failed?) {
      forall j | lo <= j < |files| && j < |os'| && OutputName(files[j]) == name
        ensures os'[j].Failed?
      {
        if j < |init| {
          assert files[j] == init[j] && os'[j] == os[j];
        }
      }
    }
  }

  /** Every file that encoded reads back its encoded size in `d`, unless a
      later file with the same output name encoded too. */
  ghost predicate ReadsBackEncodes(files: seq<Source>, os: seq<Encoded>, d: Dir)
  {
    forall i ::
      (0 <= i < |files| && i < |os| && os[i].Encoded? && FailedFrom(files, os, OutputName(files[i]), i + 1)) ==>
        Lookup(d, OutputName(files[i])) == Some(os[i].size)
  }

  /** `d'` differs from `d` at most in names some file of `files` encoded
      to: every other name, including the output of a file that failed,
      reads back as before. */
  ghost predicate OnlyEncoded(files: seq<Source>, os: seq<Encoded>, d: Dir, d': Dir)
  {
    forall name :: FailedFrom(files, os, name, 0) ==> Lookup(d', name) == Lookup(d, name)
  }

  lemma ReadsBackEncodesStep(init: seq<Source>, f: Source, os: seq<Encoded>, o: Encoded, d: Dir, d': Dir)
    requires |os| == |init| && ReadsBackEncodes(init, os, d)
    requires o.Encoded? ==> Lookup(d', OutputName(f)) == Some(o.size)
    requires o.Failed? ==> d' == d
    requires forall name :: name != OutputName(f) ==> Lookup(d', name) == Lookup(d, name)
    ensures ReadsBackEncodes(init + [f], os + [o], d')
  {
    var files := init + [f];
    var os' := os + [o];
    forall i | 0 <= i < |files| && i < |os'| && os'[i].Encoded? &&
        FailedFrom(files, os', OutputName(files[i]), i + 1)
      ensures Lookup(d', OutputName(files[i])) == Some(os'[i].size)
    {
      if i < |init| {
        assert files[i] == init[i] && os'[i] == os[i];
        FailedFromSplit(init, f, os, o, OutputName(init[i]), i + 1);
      }
    }
  }

  lemma OnlyEncodedStep(init: seq<Source>, f: Source, os: seq<Encoded>, o: Encoded, d: Dir, d1: Dir, d2: Dir)
    requires |os| == |init| && OnlyEncoded(init, os, d, d1)
    requires o.Failed? ==> d2 == d1
    requires forall name :: name != OutputName(f) ==> Lookup(d2, name) == Lookup(d1, name)
    ensures OnlyEncoded(init + [f], os + [o], d, d2)
  {
    forall name | FailedFrom(init + [f], os + [o], name, 0)
      ensures Lookup(d2, name) == Lookup(d, name)
    {
      FailedFromSplit(init, f, os, o, name, 0);
    }
  }

  /** What the first pass writes into the output directory, started from
      `d`: the outputs of the encoded files, each reading back its size unless
      a later encode overwrote it, nothing else (a failed file writes
      nothing), one file per name when `d` had that, nothing that
      `glob("*.png")` lists, and only "*.jpg" names when the sources are
      "*.png" names. */
  ghost predicate Phase1Writes(files: seq<Source>, d: Dir, p: Phase1Result)
  {
    && WroteOutputs(files, p.outcomes, p.dir)
    && ReadsBackEncodes(files, p.outcomes, p.dir)
    && OnlyEncoded(files, p.outcomes, d, p.dir)
    && (UniqueNames(d) ==> UniqueNames(p.dir))
    && KeepsFiles(d, p.dir)
    && Measure(p.dir, Png) == Measure(d, Png)
    && (AllMatch(d, Jpg) && AllPng(files) ==> AllMatch(p.dir, Jpg))
  }

  lemma Phase1WritesStep(init: seq<Source>, f: Source, d: Dir, p: Phase1Result, o: Encoded, d': Dir)
    requires |p.outcomes| == |init| && Phase1Writes(init, d, p)
    requires KeepsFiles(p.dir, d') && Measure(d', Png) == Measure(p.dir, Png)
    requires o.Encoded? ==> Lookup(d', OutputName(f)) == Some(o.size)
    requires o.Failed? ==> d' == p.dir
    requires forall name :: name != OutputName(f) ==> Lookup(d', name) == Lookup(p.dir, name)
    requires UniqueNames(p.dir) ==> UniqueNames(d')
    requires AllMatch(p.dir, Jpg) && MatchesGlob(f.name, Png) ==> AllMatch(d', Jpg)
    ensures Phase1Writes(init + [f], d, Phase1Result(d', p.outcomes + [o], p.total + SizeOf(o)))
  {
    WroteOutputsStep(init, f, p.outcomes, o, p.dir, d');
    ReadsBackEncodesStep(init, f, p.outcomes, o, p.dir, d');
    OnlyEncodedStep(init, f, p.outcomes, o, d, p.dir, d');
    var files := init + [f];
    assert AllPng(files) ==> AllPng(init) && MatchesGlob(f.name, Png) by {
      if AllPng(files) {
        assert f == files[|init|];
      }
    }
  }

  /** The first pass over the files in listing order at quality 75 and width
      1000, adding up the sizes of the outputs whose encode returned True. */
  function Phase1(files: seq<Source>, d: Dir, enc: Encoder): (r: Phase1Result)
    ensures |r.outcomes| == |files|
    ensures forall i :: 0 <= i < |files| ==>
      r.outcomes[i] == CompressImage(files[i], Phase1Quality, Phase1Width, enc)
    ensures r.total == EncodedTotal(r.outcomes)
    ensures Phase1Writes(files, d, r)
    decreases |files|
  {
    if |files| == 0 then Phase1Result(d, [], 0)
    else
      var init := files[..|files| - 1];
      var f := files[|files| - 1];
      assert files == init + [f];
      var p := Phase1(init, d, enc);
      var o := CompressImage(f, Phase1Quality, Phase1Width, enc);
      var d' := WriteOutput(p.dir, f, Settings(Phase1Quality, Phase1Width), enc);
      EncodedTotalAppend(p.outcomes, o);
      Phase1WritesStep(init, f, d, p, o, d');
      Phase1Result(d', p.outcomes + [o], p.total + SizeOf(o))
  }

  /** The second pass is taken only above the budget, and then the listing is
      not empty, so the per-file share `target_size / len(png_files)` is
      defined. */
  lemma Phase2NeedsFiles(files: seq<Source>, d: Dir, enc: Encoder)
    requires Phase1(files, d, enc).total > Target
    ensures 0 < |files|
    ensures exists i :: 0 <= i < |files| && Phase1(files, d, enc).outcomes[i].Encoded?
  {
    PositiveTotalHasSuccess(Phase1(files, d, enc).outcomes);
  }

  // ---------------------------------------------------------------------
  // Phase 2
  // ---------------------------------------------------------------------

  /** `d` holds what encoding `src` at `s` wrote, whenever that encode
      succeeded. */
  predicate Fresh(src: Source, s: Settings, d: Dir, enc: Encoder)
  {
    var c := CompressImage(src, s.quality, s.maxWidth, enc);
    c.Encoded? ==> Lookup(d, OutputName(src)) == Some(c.size)
  }

  /** Every setting of the schedule from `s` down to quality 20 encodes
      `src` successfully. */
  predicate EncodesFrom(src: Source, s: Settings, enc: Encoder)
    requires OnSchedule(s)
    decreases s.quality
  {
    && CompressImage(src, s.quality, s.maxWidth, enc).Encoded?
    && (FloorQuality < s.quality ==> EncodesFrom(src, Tighten(s), enc))
  }

  /** Two states of the schedule are equal or a whole step apart. */
  lemma ScheduleSteps(s: Settings, t: Settings)
    requires OnSchedule(s) && OnSchedule(t) && t.quality <= s.quality
    ensures t == s || t.quality <= s.quality - QualityStep
  {
    if t.quality < s.quality {
      var a, b := t.quality / QualityStep, s.quality / QualityStep;
      assert t.quality == a * QualityStep && s.quality == b * QualityStep;
      assert a < b;
    }
  }

  /** Reference for the retry loop, on the encoder alone and without a
      directory: the first setting of the schedule from `s` whose encode
      meets the share, or quality 20, whichever comes first. */
  function FirstFit(src: Source, n: nat, s: Settings, enc: Encoder): (r: Settings)
    requires OnSchedule(s)
    ensures OnSchedule(r) && r.quality <= s.quality
    ensures FloorQuality < r.quality ==>
      !(CompressImage(src, r.quality, r.maxWidth, enc).Encoded? &&
        OverShare(CompressImage(src, r.quality, r.maxWidth, enc).size, n))
    ensures forall t :: OnSchedule(t) && r.quality < t.quality <= s.quality ==>
      CompressImage(src, t.quality, t.maxWidth, enc).Encoded? &&
      OverShare(CompressImage(src, t.quality, t.maxWidth, enc).size, n)
    decreases s.quality
  {
    var c := CompressImage(src, s.quality, s.maxWidth, enc);
    if c.Encoded? && OverShare(c.size, n) && FloorQuality < s.quality then
      var r := FirstFit(src, n, Tighten(s), enc);
      assert forall t :: OnSchedule(t) && r.quality < t.quality <= s.quality ==>
        t == s || t.quality <= Tighten(s).quality
      by {
        forall t | OnSchedule(t) && t.quality <= s.quality
          ensures t == s || t.quality <= Tighten(s).quality
        {
          ScheduleSteps(s, t);
        }
      }
      r
    else
      s
  }

  /** The size the output of `src` holds once the loop has re-encoded every
      setting of the schedule after `s` down to quality `q`, starting from
      `before` bytes: a successful encode overwrites the file, a failed one
      leaves what was there. */
  function Holds(src: Source, s: Settings, q: int, before: nat, enc: Encoder): (r: nat)
    requires OnSchedule(s)
    ensures (forall t :: OnSchedule(t) && q <= t.quality < s.quality ==>
               CompressImage(src, t.quality, t.maxWidth, enc).Failed?) ==> r == before
    decreases s.quality
  {
    if s.quality - QualityStep < q || s.quality <= FloorQuality then before
    else
      var s' := Tighten(s);
      var c := CompressImage(src, s'.quality, s'.maxWidth, enc);
      Holds(src, s', q, if c.Encoded? then c.size else before, enc)
  }

  /** The retry loop from settings `s` onwards, `k` re-encodes done so far:
      read back the output size; while it is over the share and the quality
      is above 20, tighten the settings and encode again. */
  function Retry(src: Source, n: nat, s: Settings, k: nat, d: Dir, enc: Encoder): (r: Outcome<Trial>)
    requires OnSchedule(s)
    ensures r.Missing? <==> Lookup(d, OutputName(src)).None?
    ensures r.Done? ==>
      && OnSchedule(r.value.settings)
      && r.value.settings.quality <= s.quality
      && r.value.settings.maxWidth <= s.maxWidth
      && r.value.reencodes == k + (s.quality - r.value.settings.quality) / QualityStep
      && Lookup(r.value.dir, OutputName(src)) == Some(r.value.size)
      && !(OverShare(r.value.size, n) && FloorQuality < r.value.settings.quality)
      && (forall name :: name != OutputName(src) ==> Lookup(r.value.dir, name) == Lookup(d, name))
      && Measure(r.value.dir, Png) == Measure(d, Png)
      && (AllMatch(d, Jpg) && MatchesGlob(src.name, Png) ==> AllMatch(r.value.dir, Jpg))
    ensures r.Done? && Fresh(src, s, d, enc) ==> Fresh(src, r.value.settings, r.value.dir, enc)
    ensures Fresh(src, s, d, enc) && EncodesFrom(src, s, enc) ==>
      r.Done? && r.value.settings == FirstFit(src, n, s, enc)
    ensures r.Done? ==>
      r.value.size == Holds(src, s, r.value.settings.quality, Lookup(d, OutputName(src)).value, enc)
    ensures r.Done? && UniqueNames(d) ==> UniqueNames(r.value.dir)
    decreases s.quality
  {
    match Lookup(d, OutputName(src))
    case None => Missing(OutputName(src))
    case Some(size) =>
      if OverShare(size, n) && FloorQuality < s.quality then
        var s' := Tighten(s);
        Retry(src, n, s', k + 1, WriteOutput(d, src, s', enc), enc)
      else
        Done(Trial(s, k, d, size))
  }

  /** One file of the second pass: encode at quality 50 and width 800, then
      retry. It crashes exactly when that encode fails and no earlier output
      of the file is there to read back. */
  function Shrink(src: Source, n: nat, d: Dir, enc: Encoder): (r: Outcome<Trial>)
    ensures r.Missing? <==>
      Lookup(d, OutputName(src)).None? && CompressImage(src, StartQuality, StartWidth, enc).Failed?
    ensures r.Done? ==>
      && TrialFor(src, n, r.value, enc)
      && Lookup(r.value.dir, OutputName(src)) == Some(r.value.size)
      && (forall name :: name != OutputName(src) ==> Lookup(r.value.dir, name) == Lookup(d, name))
      && Measure(r.value.dir, Png) == Measure(d, Png)
      && (AllMatch(d, Jpg) && MatchesGlob(src.name, Png) ==> AllMatch(r.value.dir, Jpg))
    ensures r.Done? ==>
      var first := CompressImage(src, StartQuality, StartWidth, enc);
      r.value.size ==
        Holds(src, Aggressive, r.value.settings.quality,
              if first.Encoded? then first.size else Lookup(d, OutputName(src)).value, enc)
    ensures r.Done? && UniqueNames(d) ==> UniqueNames(r.value.dir)
  {
    Retry(src, n, Aggressive, 0, WriteOutput(d, src, Aggressive, enc), enc)
  }

  /** What the retry loop promises of one file: at most three re-encodes,
      quality not below 20, and the share met unless quality reached 20. */
  predicate TrialOk(t: Trial, n: nat)
  {
    && t.reencodes <= 3
    && FloorQuality <= t.settings.quality
    && (!OverShare(t.size, n) || t.settings.quality == FloorQuality)
  }

  /** What the second pass promises of the trial of `src`: the stop rule of
      TrialOk on the schedule, one re-encode per step, the size read back is
      what the last encode wrote whenever that encode succeeded, and when
      every encode of the schedule succeeds the loop stops at FirstFit. */
  predicate TrialFor(src: Source, n: nat, t: Trial, enc: Encoder)
  {
    && TrialOk(t, n)
    && OnSchedule(t.settings)
    && t.reencodes == (StartQuality - t.settings.quality) / QualityStep
    && (CompressImage(src, t.settings.quality, t.settings.maxWidth, enc).Encoded? ==>
          t.size == CompressImage(src, t.settings.quality, t.settings.maxWidth, enc).size)
    && (EncodesFrom(src, Aggressive, enc) ==> t.settings == FirstFit(src, n, Aggressive, enc))
  }

  /** Every file present in `d` is still present in `d'`. */
  ghost predicate KeepsFiles(d: Dir, d': Dir)
  {
    forall name :: Lookup(d, name).Some? ==> Lookup(d', name).Some?
  }

  /** Sum of the sizes read back at the end of each second-pass file. */
  function TrialTotal(ts: seq<Trial>): nat
  {
    if |ts| == 0 then 0 else ts[0].size + TrialTotal(ts[1..])
  }

  lemma {:induction false} TrialTotalAppend(ts: seq<Trial>, t: Trial)
    ensures TrialTotal(ts + [t]) == TrialTotal(ts) + t.size
    decreases |ts|
  {
    if |ts| == 0 {
      assert ts + [t] == [t];
    } else {
      assert (ts + [t])[1..] == ts[1..] + [t];
      TrialTotalAppend(ts[1..], t);
    }
  }

  /** Every file of `files` has an output in `d` to read back. */
  ghost predicate HasOutputs(files: seq<Source>, d: Dir)
  {
    forall f :: f in files ==> Lookup(d, OutputName(f)).Some?
  }

  /** Every file whose output name no later file shares reads back the
      size of its trial in `d`. */
  ghost predicate ReadsBackTrials(files: seq<Source>, ts: seq<Trial>, d: Dir)
  {
    forall i ::
      (0 <= i < |files| && i < |ts| && NotAnOutput(files[i + 1..], OutputName(files[i]))) ==>
        Lookup(d, OutputName(files[i])) == Some(ts[i].size)
  }

  lemma ReadsBackTrialsStep(init: seq<Source>, f: Source, ts: seq<Trial>, t: Trial, d: Dir, d': Dir)
    requires |ts| == |init| && ReadsBackTrials(init, ts, d)
    requires Lookup(d', OutputName(f)) == Some(t.size)
    requires forall name :: name != OutputName(f) ==> Lookup(d', name) == Lookup(d, name)
    ensures ReadsBackTrials(init + [f], ts + [t], d')
  {
    var files := init + [f];
    var ts' := ts + [t];
    forall i | 0 <= i < |files| && i < |ts'| && NotAnOutput(files[i + 1..], OutputName(files[i]))
      ensures Lookup(d', OutputName(files[i])) == Some(ts'[i].size)
    {
      if i < |init| {
        assert files[i + 1..] == init[i + 1..] + [f];
        assert f in files[i + 1..];
        assert files[i] == init[i] && ts'[i] == ts[i];
        assert NotAnOutput(init[i + 1..], OutputName(init[i]));
      }
    }
  }

  /** What the second pass over `files` promises of its result `p`, started
      from directory `d` with the share of `n` files: one trial per file, as
      TrialFor says; each output reads back its trial's size unless a later
      file overwrote it; nothing but the outputs changes. */
  ghost predicate Phase2Ok(files: seq<Source>, n: nat, d: Dir, enc: Encoder, p: Phase2Result)
  {
    && |p.trials| == |files|
    && (forall i :: 0 <= i < |files| ==> TrialFor(files[i], n, p.trials[i], enc))
    && ReadsBackTrials(files, p.trials, p.dir)
    && OnlyOutputs(files, d, p.dir)
    && KeepsFiles(d, p.dir)
    && (UniqueNames(d) ==> UniqueNames(p.dir))
    && p.total == TrialTotal(p.trials)
    && Measure(p.dir, Png) == Measure(d, Png)
    && (AllMatch(d, Jpg) && AllPng(files) ==> AllMatch(p.dir, Jpg))
  }

  lemma TrialsForStep(init: seq<Source>, f: Source, n: nat, enc: Encoder, ts: seq<Trial>, t: Trial)
    requires |ts| == |init| && forall i :: 0 <= i < |init| ==> TrialFor(init[i], n, ts[i], enc)
    requires TrialFor(f, n, t, enc)
    ensures forall i :: 0 <= i < |init| + 1 ==> TrialFor((init + [f])[i], n, (ts + [t])[i], enc)
  {
    forall i | 0 <= i < |init| + 1
      ensures TrialFor((init + [f])[i], n, (ts + [t])[i], enc)
    {
      if i < |init| {
        assert (init + [f])[i] == init[i] && (ts + [t])[i] == ts[i];
      }
    }
  }

  /** A write confined to one name keeps every file of a directory that
      already kept the files of `d`. */
  lemma KeepsFilesStep(d: Dir, d1: Dir, d2: Dir, name: string)
    requires KeepsFiles(d, d1)
    requires Lookup(d2, name).Some?
    requires forall other :: other != name ==> Lookup(d2, other) == Lookup(d1, other)
    ensures KeepsFiles(d, d2)
  {
  }

  lemma Phase2OkStep(init: seq<Source>, f: Source, n: nat, d: Dir, enc: Encoder, p: Phase2Result, t: Trial)
    requires Phase2Ok(init, n, d, enc, p)
    requires TrialFor(f, n, t, enc)
    requires Lookup(t.dir, OutputName(f)) == Some(t.size)
    requires forall name :: name != OutputName(f) ==> Lookup(t.dir, name) == Lookup(p.dir, name)
    requires Measure(t.dir, Png) == Measure(p.dir, Png)
    requires AllMatch(p.dir, Jpg) && MatchesGlob(f.name, Png) ==> AllMatch(t.dir, Jpg)
    requires UniqueNames(p.dir) ==> UniqueNames(t.dir)
    ensures Phase2Ok(init + [f], n, d, enc, Phase2Result(t.dir, p.trials + [t], p.total + t.size))
  {
    TrialTotalAppend(p.trials, t);
    TrialsForStep(init, f, n, enc, p.trials, t);
    KeepsFilesStep(d, p.dir, t.dir, OutputName(f));
    ReadsBackTrialsStep(init, f, p.trials, t, p.dir, t.dir);
    OnlyOutputsStep(init, f, d, p.dir, t.dir);
    var files := init + [f];
    var p' := Phase2Result(t.dir, p.trials + [t], p.total + t.size);
    assert AllPng(files) ==> AllPng(init) && MatchesGlob(f.name, Png) by {
      if AllPng(files) {
        assert f == files[|init|];
      }
    }
    assert forall i :: 0 <= i < |files| ==> TrialFor(files[i], n, p'.trials[i], enc);
    assert ReadsBackTrials(files, p'.trials, p'.dir);
    assert OnlyOutputs(files, d, p'.dir);
    assert KeepsFiles(d, p'.dir);
    assert UniqueNames(d) ==> UniqueNames(p'.dir);
    assert p'.total == TrialTotal(p'.trials);
  }

  /** The second pass can start on `f`: its output is there to read back, or
      the first aggressive encode writes it. */
  predicate CanStart(f: Source, d: Dir, enc: Encoder)
  {
    Lookup(d, OutputName(f)).Some? || CompressImage(f, StartQuality, StartWidth, enc).Encoded?
  }

  /** The second pass over the files in listing order, each against the share
      of `n` files. Stops with Missing at the first output it cannot read back. */
  function Phase2(files: seq<Source>, n: nat, d: Dir, enc: Encoder): (r: Outcome<Phase2Result>)
    ensures HasOutputs(files, d) ==> r.Done?
    ensures r.Done? ==> Phase2Ok(files, n, d, enc, r.value)
    decreases |files|
  {
    if |files| == 0 then Done(Phase2Result(d, [], 0))
    else
      var init := files[..|files| - 1];
      var f := files[|files| - 1];
      assert files == init + [f];
      assert HasOutputs(files, d) ==> HasOutputs(init, d) && Lookup(d, OutputName(f)).Some?;
      match Phase2(init, n, d, enc)
      case Missing(name) => Missing(name)
      case Done(p) =>
        match Shrink(f, n, p.dir, enc)
        case Missing(name) => Missing(name)
        case Done(t) =>
          Phase2OkStep(init, f, n, d, enc, p, t);
          Done(Phase2Result(t.dir, p.trials + [t], p.total + t.size))
  }

  /** The second pass crashes only on a file that cannot start, and always
      completes when every file can. */
  lemma {:induction false} Phase2Crash(files: seq<Source>, n: nat, d: Dir, enc: Encoder)
    ensures (forall f :: f in files ==> CanStart(f, d, enc)) ==> Phase2(files, n, d, enc).Done?
    ensures Phase2(files, n, d, enc).Missing? ==> exists f :: f in files && !CanStart(f, d, enc)
    decreases |files|
  {
    if |files| != 0 {
      var init := files[..|files| - 1];
      var f := files[|files| - 1];
      assert files == init + [f];
      assert f in files && forall g :: g in init ==> g in files;
      Phase2Crash(init, n, d, enc);
      match Phase2(init, n, d, enc)
      case Missing(_) =>
      case Done(p) =>
        assert CanStart(f, d, enc) ==> CanStart(f, p.dir, enc);
    }
  }

  /** The point of the even split: when every one of the `n` files meets its
      share, the files together meet the budget. */
  lemma {:induction false} SharesFitBudget(ts: seq<Trial>, n: nat)
    requires forall i :: 0 <= i < |ts| ==> !OverShare(ts[i].size, n)
    ensures TrialTotal(ts) * n <= |ts| * Target
    decreases |ts|
  {
    if |ts| != 0 {
      assert !OverShare(ts[0].size, n);
      SharesFitBudget(ts[1..], n);
      assert TrialTotal(ts) * n == ts[0].size * n + TrialTotal(ts[1..]) * n;
    }
  }

  lemma EvenSplitMeetsBudget(ts: seq<Trial>)
    requires 0 < |ts|
    requires forall i :: 0 <= i < |ts| ==> !OverShare(ts[i].size, |ts|)
    ensures TrialTotal(ts) <= Target
  {
    SharesFitBudget(ts, |ts|);
    CancelFactor(TrialTotal(ts), Target, |ts|);
  }

  // ---------------------------------------------------------------------
  // The whole run
  // ---------------------------------------------------------------------

  /** `glob(os.path.join(img_dir, "*.png"))`: the listed sources, in
      listing order. */
  function PngFiles(listing: seq<Source>): (r: seq<Source>)
    ensures forall f :: f in r <==> f in listing && MatchesGlob(f.name, Png)
    ensures forall f :: multiset(r)[f] == if MatchesGlob(f.name, Png) then multiset(listing)[f] else 0
    ensures |r| <= |listing|
  {
    if |listing| == 0 then []
    else
      assert listing == [listing[0]] + listing[1..];
      (if MatchesGlob(listing[0].name, Png) then [listing[0]] else []) + PngFiles(listing[1..])
  }

  /** The filter keeps listing order: filtering a concatenation filters each
      part and concatenates the results. */
  lemma {:induction false} PngFilesAppend(a: seq<Source>, b: seq<Source>)
    ensures PngFiles(a + b) == PngFiles(a) + PngFiles(b)
    decreases |a|
  {
    if |a| == 0 {
      assert a + b == b;
    } else {
      assert (a + b)[1..] == a[1..] + b;
      PngFilesAppend(a[1..], b);
    }
  }

  /** When every encode of the first pass succeeded, every file has an
      output to read back. */
  lemma AllEncodedHasOutputs(files: seq<Source>, os: seq<Encoded>, d: Dir)
    requires |os| == |files| && WroteOutputs(files, os, d)
    requires forall i :: 0 <= i < |os| ==> os[i].Encoded?
    ensures HasOutputs(files, d)
  {
    forall f | f in files
      ensures Lookup(d, OutputName(f)).Some?
    {
      var i :| 0 <= i < |files| && files[i] == f;
    }
  }

  /** Above the budget, `r` is the outcome of the second pass over `files`,
      run on the first pass's directory with the share of all the files:
      missing exactly when that pass hits a missing output, and otherwise
      its directory, with everything the second pass promises. */
  ghost predicate SecondPassResult(files: seq<Source>, p1: Phase1Result, enc: Encoder, r: Outcome<Dir>)
  {
    p1.total > Target ==>
      && (r.Missing? <==> Phase2(files, |files|, p1.dir, enc).Missing?)
      && (r.Done? ==>
            && Phase2(files, |files|, p1.dir, enc).Done?
            && r.value == Phase2(files, |files|, p1.dir, enc).value.dir
            && Phase2Ok(files, |files|, p1.dir, enc, Phase2(files, |files|, p1.dir, enc).value))
  }

  /** What follows the first pass: the second pass over `files` when the
      first-pass total is over the budget, nothing otherwise. */
  function AfterPhase1(files: seq<Source>, p1: Phase1Result, enc: Encoder): (r: Outcome<Dir>)
    ensures p1.total <= Target ==> r == Done(p1.dir)
    ensures SecondPassResult(files, p1, enc, r)
    ensures HasOutputs(files, p1.dir) ==> r.Done?
    ensures r.Done? ==> Measure(r.value, Png) == Measure(p1.dir, Png)
    ensures r.Done? && AllMatch(p1.dir, Jpg) && AllPng(files) ==> AllMatch(r.value, Jpg)
    ensures r.Done? && UniqueNames(p1.dir) ==> UniqueNames(r.value)
  {
    if p1.total > Target then
      match Phase2(files, |files|, p1.dir, enc)
      case Missing(name) => Missing(name)
      case Done(p2) => Done(p2.dir)
    else
      Done(p1.dir)
  }

  /** Both passes over the listing, writing into the output directory `out0`
      (which `os.makedirs(..., exist_ok=True)` may find already populated). */
  function CompressAll(listing: seq<Source>, out0: Dir, enc: Encoder): (r: Outcome<Dir>)
    ensures Phase1(PngFiles(listing), out0, enc).total <= Target ==>
      r == Done(Phase1(PngFiles(listing), out0, enc).dir)
    ensures (forall i :: 0 <= i < |PngFiles(listing)| ==>
               Phase1(PngFiles(listing), out0, enc).outcomes[i].Encoded?) ==> r.Done?
    ensures SecondPassResult(PngFiles(listing), Phase1(PngFiles(listing), out0, enc), enc, r)
    ensures r.Done? ==> Measure(r.value, Png) == Measure(out0, Png)
    ensures r.Done? && AllMatch(out0, Jpg) ==> AllMatch(r.value, Jpg)
    ensures r.Done? && UniqueNames(out0) ==> UniqueNames(r.value)
  {
    var files := PngFiles(listing);
    var p1 := Phase1(files, out0, enc);
    assert (forall i :: 0 <= i < |files| ==> p1.outcomes[i].Encoded?) ==> HasOutputs(files, p1.dir) by {
      if forall i :: 0 <= i < |files| ==> p1.outcomes[i].Encoded? {
        AllEncodedHasOutputs(files, p1.outcomes, p1.dir);
      }
    }
    assert AllPng(files);
    AfterPhase1(files, p1, enc)
  }

  /** The final test: the directories are swapped exactly when the measured
      size is within the budget; otherwise only the failure is reported. */
  function Decide(d: Dir, finalSize: nat): (r: RunResult)
    ensures r.Swapped? <==> finalSize <= Target
    ensures !r.Crashed? && r.dir == d && r.finalSize == finalSize
  {
    if finalSize <= Target then Swapped(d, finalSize) else Kept(d, finalSize)
  }

  /** `main` as written: the final size is measured through "*.png" on the
      output directory. It only ever sees `*.png` files that were there
      before the run, never an output, so a run into a fresh directory
      always swaps. */
  function RunAsWritten(listing: seq<Source>, out0: Dir, enc: Encoder): (r: RunResult)
    ensures r.Crashed? <==> CompressAll(listing, out0, enc).Missing?
    ensures !r.Crashed? ==>
      && CompressAll(listing, out0, enc).Done?
      && r.dir == CompressAll(listing, out0, enc).value
      && r.finalSize == Measure(out0, Png)
      && (r.Swapped? <==> Measure(out0, Png) <= Target)
    ensures out0 == [] ==> !r.Kept?
  {
    match CompressAll(listing, out0, enc)
    case Missing(name) => Crashed(name)
    case Done(d) => Decide(d, Measure(d, Png))
  }

  /** `main` with the final size measured over the outputs ("*.jpg"): when
      the output directory holds only JPEG files to begin with (a fresh one
      holds none), the swap happens exactly when everything that replaces
      the originals fits the budget. */
  function Run(listing: seq<Source>, out0: Dir, enc: Encoder): (r: RunResult)
    ensures r.Crashed? <==> CompressAll(listing, out0, enc).Missing?
    ensures !r.Crashed? ==>
      && CompressAll(listing, out0, enc).Done?
      && r.dir == CompressAll(listing, out0, enc).value
      && r.finalSize == Measure(r.dir, Jpg)
      && (r.Swapped? <==> r.finalSize <= Target)
    ensures AllMatch(out0, Jpg) && !r.Crashed? ==>
      (r.Swapped? <==> Total(r.dir) <= Target) && r.finalSize == Total(r.dir)
  {
    match CompressAll(listing, out0, enc)
    case Missing(name) => Crashed(name)
    case Done(d) =>
      assert AllMatch(out0, Jpg) ==> Measure(d, Jpg) == Total(d) by {
        if AllMatch(out0, Jpg) {
          MeasureAllListed(d, Jpg);
        }
      }
      Decide(d, Measure(d, Jpg))
  }
}
